=== FILE: README.md ===
# teaio remux core in Dafny

A model of the remux decision logic of teaio (`src/Teaio.h`). teaio copies the
audio, video and subtitle streams of one media container into another without
re-encoding. The model leaves out the libav calls themselves. It covers:

- **Errors** (`errors.dfy`, with `decimal.dfy`): the `Errno` enumeration and its
  integer values, `TEAIO_FAILED`, and `teaioGetErrnoString`. The mapping is total:
  values outside the enumeration get the `Unknown Error %d` text, and `%d` is
  modelled by a decimal printer together with its parser.
- **Arguments** (`args.dfy`): `__TeaioArgs_complete` and `teaioSplitArgs`. The
  scan starts at `argv[0]`, exactly as the source's loop does. A `-i` or `-o` that
  the scan reaches as a flag in last position makes the source read past the end
  of `argv`; the model returns `None` there. A trailing `-i` or `-o` that is taken
  as the value of the flag before it is read normally.
- **Streams** (`streams.dfy`): `__teaioMapStreams`. The map starts as `calloc`'s
  zeros. Dropped streams get -1 and kept streams get the next dense index. Each
  kept stream gets a new output stream whose parameters are copied with the codec
  tag cleared. A failure part-way returns the partly filled map.
- **Packets** (`packets.dfy`): the copy loop of `teaioRemux`. Each packet is
  discarded or forwarded, renumbered, to its mapped stream. A failed write ends
  the loop.
- **Remux** (`remux.dfy`): `teaioRemux` as a chain of fallible steps followed by
  the `free:` block. The run produces a trace of `Acquire`/`Release` events with
  one `Cleanup` marker where `free:` is entered.

Each libav call is an outcome taken from an `Env` record:
- `av_packet_alloc`, `avformat_open_input` (the opened streams, or none),
  `avformat_find_stream_info`, the `calloc` of the map, `avio_open`, the header
  write and the trailer write are plain success flags or results.
- `avformat_alloc_output_context2` is a function from file name to format.
- `avformat_new_stream` and `avcodec_parameters_copy` are given one fault value
  per stream.
- `av_read_frame` is the list of packets it delivers before it returns < 0.
- `av_write_frame` is the number of the first call that fails.
- `av_packet_rescale_ts` is an opaque function.

The free-block calls (`av_packet_free`, `avformat_close_input`, `avio_closep`,
`avformat_free_context`, `free`) do nothing on a NULL handle. So a release event is
emitted only for a resource the run holds. The `avio_closep` guard on line 282 is
kept as written, and the proofs show it closes the I/O handle exactly when it was
opened.

Some behaviour of the code is easy to overlook, and the model keeps it as written:
- The output format is guessed from the input path (line 223); see Findings.
- `__TeaioArgs_complete` returns FAILURE (lines 50-54), and `teaioSplitArgs`
  reports any incomplete record as MISSING_ARGUMENTS (lines 193-196).
- Paths are only tested against NULL (line 51), not for being empty, so
  `-i ""` is accepted.
- A failed packet write only leaves the copy loop (lines 266-269). The trailer is
  still written (line 272), and the run's error comes from the trailer write alone.

`Remux` requires both paths to be set. Its only caller (`src/Ayanami.cpp:10-18`)
calls it only after `teaioSplitArgs` reported success.

## Model

| member | source | states |
|---|---|---|
| Errors.Code | src/Teaio.h:16-23 | each enumerator has its declaration-order value, all below 6 |
| Errors.FromCode | src/Teaio.h:16-23 | exactly the values 0-5 name an enumerator, and that enumerator has the value |
| Errors.CodeRoundTrip | src/Teaio.h:16-23 | value and enumerator convert into each other without loss |
| Errors.IsFailed | src/Teaio.h:36 | `TEAIO_FAILED` holds exactly when the error's integer value is not 0, the value of SUCCESS |
| Errors.ErrnoString | src/Teaio.h:133-159 | the six enumerators get their fixed names; any other value gets a name starting with `Unknown Error ` |
| Errors.ErrnoStringIdentifiesCode | src/Teaio.h:133-159 | the name of every integer value, known or unknown, reads back to that value, so the mapping is total and loses nothing |
| Errors.ErrnoStringInjective | src/Teaio.h:133-159 | no two values share a name |
| Decimal.IntToStringRoundTrip | src/Teaio.h:156 | the `%d` text of the default branch parses back to the value printed |
| Arguments.Complete | src/Teaio.h:50-54 | SUCCESS exactly when both paths are set; otherwise FAILURE |
| Arguments.Scan | src/Teaio.h:176-191 | the scan reads past the end of `argv` only when the last token is `-i` or `-o` |
| Arguments.ScanProvenance | src/Teaio.h:176-191 | a path the scan sets is the token right after some `-i` (resp. `-o`); `verbose` is never cleared and is set only if `-v` occurs |
| Arguments.ScanRender | src/Teaio.h:176-191 | on a well-formed option list the scan gives exactly the record of the options, with the last `-i`/`-o` winning and any `-v` setting verbosity |
| Arguments.SplitArgs | src/Teaio.h:166-199 | fewer than 5 entries give MISSING_ARGUMENTS and the empty record without scanning; otherwise the error is SUCCESS exactly when both paths were set, and MISSING_ARGUMENTS if not |
| Arguments.CanonicalCommandLine | src/Teaio.h:166-199 | `prog -i <in> -o <out> [-v]` splits into the complete record with SUCCESS |
| Arguments.ParseRender | src/Teaio.h:176-191 | every token list is a well-formed command line, possibly followed by one `-i` or `-o` left without a value |
| Arguments.ScanParse | src/Teaio.h:176-191 | on every `argv`, the scan reads past the end exactly when a final `-i`/`-o` is left without a value, and otherwise returns the meaning of the options |
| Arguments.SplitArgsRender | src/Teaio.h:166-199 | on every well-formed command line of at least 5 entries, in any option order, the record returned is the meaning of the options, and the error is SUCCESS exactly when both paths are set, MISSING_ARGUMENTS otherwise |
| Arguments.TrailingFlagReadsPastEnd | src/Teaio.h:176-191 | after any well-formed command line, a final `-i` or `-o` is reached as a flag and the scan reads past the end of `argv` |
| Arguments.TrailingInputFlagReadsPastEnd | src/Teaio.h:177-190 | the concrete line `teaio -o out.mp4 in.mkv -i` reads past the end of `argv` |
| Arguments.TrailingFlagTakenAsValue | src/Teaio.h:176-191 | in `prog a b -i -o` the final `-o` is the input path; the loop stops at the NULL and the output is missing |
| Streams.Clone | src/Teaio.h:116-122 | the output parameters equal the input ones except the codec tag, which is 0 |
| Streams.StopIndex | src/Teaio.h:109-120 | the first kept stream whose output stream cannot be created or filled, if there is one |
| Streams.MapLoop | src/Teaio.h:95-125 | the loop fills entries up to the failing stream with their reference value (the failing stream included, since line 107 runs first) and leaves later entries at 0; it creates one clone per kept stream before the failure, plus the unfilled stream a failed copy leaves; the error is ALLOCATION_ERROR exactly when a stream failed |
| Streams.MapStreams | src/Teaio.h:87-126 | a failed `calloc` gives a NULL map, no streams and ALLOCATION_ERROR; otherwise a map with one entry per input stream and the outcome above |
| Streams.DenseMapIsRange | src/Teaio.h:95-107 | entries are -1 exactly for streams that are not audio, video or subtitle; the other entries are exactly 0..K-1 for K kept streams, strictly increasing in input order |
| Streams.DenseIndexAddressesStream | src/Teaio.h:107 | a kept stream's entry is its position among the kept streams |
| Streams.DenseIndexIncreasing | src/Teaio.h:95-107 | a later kept stream has a larger index |
| Streams.DenseIndexOnto | src/Teaio.h:95-107 | every index below K is used by some stream |
| Streams.MapStreamsSuccess | src/Teaio.h:95-125 | with no failure, the map is the dense reference map and there are exactly K output streams; the output stream at a kept stream's index is that stream's clone |
| Streams.MapStreamsPartial | src/Teaio.h:109-120 | after a failure part-way the error is ALLOCATION_ERROR; entries after the failing stream are 0, not -1; the created streams are the clones before it plus one for a failed copy |
| Streams.WrittenParamsAreKept | src/Teaio.h:100-122 | the parameters written (the kept streams' parameters with the codec tag cleared) keep the kept streams' media types, so all of them are kept |
| Streams.RemuxOfRemuxMapsIdentically | src/Teaio.h:100-122 | remuxing the written streams again keeps all of them, maps every stream to its own index and writes the same parameters |
| Packets.Target | src/Teaio.h:255-260 | a packet is forwarded exactly when its index is inside the stream table and its entry is non-negative, and then to that entry |
| Packets.Forward | src/Teaio.h:254-264 | the forwarded packet has the mapped index and the original payload, and its timestamps are rescaled from the packet's input stream to its output stream |
| Packets.CopyLoop | src/Teaio.h:248-270 | the packets submitted are a prefix of the reference forwarding; a write fails exactly when the failing call number is reached, and then the loop stops right after it; without a failure every forwarded packet is submitted |
| Packets.ForwardedTargets | src/Teaio.h:255-261 | every forwarded packet goes to an index some input stream maps to |
| Packets.ForwardedMatchesRoutable | src/Teaio.h:255-264 | the k-th forwarded packet is the k-th routable packet read, renumbered by its entry |
| Packets.StepAsWritten | src/Teaio.h:254-258 | as written, routing is the same as with the check first, but the table read differs from the checked step exactly for discarded packets; a packet with an out-of-range index is discarded after a table read outside the table |
| Packets.StepAsWrittenReadsOutOfRange | src/Teaio.h:254-255 | a packet with index `nb_streams` is discarded after an out-of-range table read |
| Packets.StepChecked | src/Teaio.h:254-258 | with the check first, every table read is in range and the routing is unchanged |
| Remux.Stages | src/Teaio.h:216-276 | at `free:` the packet is held, no resource is held twice, the output context is held exactly when its format is known, and the I/O handle only with a non-NOFILE format |
| Remux.Run | src/Teaio.h:201-288 | a failed packet allocation returns ALLOCATION_ERROR with nothing acquired; the run succeeds exactly when every step through the trailer succeeds; the trailer is attempted exactly when the header was written, whatever the packet writes did |
| Remux.Remux | src/Teaio.h:223-225 | as written, success depends on the format guessed from the input path |
| Remux.RemuxIntended | src/Teaio.h:223-225 | with the fix, success depends on the format guessed from the output path |
| Remux.FreeBlockGuards | src/Teaio.h:278-286 | the `free:` block only releases; it closes the I/O handle exactly when the output context exists, its format is not NOFILE and the handle was opened (line 282), and it frees the output context exactly when one exists |
| Remux.FreeBlockReleasesHeld | src/Teaio.h:278-286 | the `free:` block releases each held resource once and nothing else |
| Remux.ScopeTraceBalanced | src/Teaio.h:278-287 | every resource is acquired at most once and released exactly as often |
| Remux.ScopeTraceOrdered | src/Teaio.h:278-287 | all acquisitions come first, then one entry into `free:`, then all releases |
| Remux.RunReleasesEachResourceOnce | src/Teaio.h:210-287 | after the packet is allocated, every exit path runs `free:` once and releases each acquired resource exactly once; the I/O handle is closed exactly when it was opened |
| Remux.RunErrorKinds | src/Teaio.h:216-276 | input failures give FILE_ERROR; a format failure and a mapping failure give ALLOCATION_ERROR; I/O and header failures give FILE_ERROR; after the header the error depends only on the trailer write, not on a failed packet write |
| Remux.RunStopsAtFailure | src/Teaio.h:216-240 | a failed input step acquires no output context and creates no stream; a format failure also maps nothing; a mapping failure opens no I/O handle and attempts no trailer |
| Remux.StagesHoldIo | src/Teaio.h:228-240 | the I/O handle is held at `free:` exactly when the streams were mapped, the format needs a file and `avio_open` succeeded |
| Remux.RunCopiesForwardedPackets | src/Teaio.h:248-270 | after the header the output streams are the kept streams' clones; the submitted packets are a prefix of the reference forwarding that ends with call number `n` when call `n` is the first failing write within it, and all of it otherwise; every submitted index names an output stream of the model |
| Remux.RemuxFormatFromInputPath | src/Teaio.h:223-225 | as written, an output name with no known format is not rejected when the input name yields a format |
| Remux.RemuxIntendedRejectsUnknownFormat | src/Teaio.h:223-225 | with the fix, an output name with no known format fails with ALLOCATION_ERROR before any stream is mapped |

## Left out

- The libav calls themselves. Each is an outcome in `Env`; their internal behaviour is outside this code.
- `av_packet_rescale_ts` is the opaque `Env.rescale`. Its rounding is library code, so per-stream timestamp monotonicity is not stated.
- `av_dump_format`: the `verbose` flag is parsed but has no effect on the modelled run, because it only prints.
- Error message texts (the `sprintf` into the 256-byte `message`), `teaioPrintUsage` and its global `__argv`: these are formatting and I/O. Only the error kind is modelled.
- The static buffer that `teaioGetErrnoString` returns for unknown values. The model returns a fresh string.
- `src/Ayanami.cpp` `main`: it only prints and maps errors to exit codes 0 and 1.
- `calloc`, `free` and `teaioFree` are modelled only as acquire and release events.
- Per-packet payload references are not tracked. This covers the `av_packet_unref` of a discarded packet, and the fact that the loop never unreferences a forwarded packet.
- Streams that appear during `av_read_frame` are not modelled. In the model the input stream table always has the map's length. In the code, line 255 compares with the live `nb_streams`. A demuxer that adds a stream while reading (an `AVFMTCTX_NOHEADER` format) passes that check for the new index, and lines 255 and 260 then read `streamMap` past the length allocated on line 88. So "every submitted index names an output stream" is a property of the model, not of such inputs.
- The `AVDictionary` options argument of `__teaioOpenInput` is left out; it is always NULL.
- Integer widths: stream counts and indices are unbounded. A negative index is treated as out of range, as the unsigned comparison with `nb_streams` makes it.
- Streams.MapLoop: the content of an output stream whose parameter copy failed is left unspecified (`None`).
- Arguments.ScanProvenance: it does not say which occurrence of `-i` or `-o` wins on arbitrary token lists. That is stated only for well-formed option lists, in `Arguments.ScanRender`.

## Findings

| source | as written | input that shows it | evidently intended | confidence | as-written member | corrected member |
|---|---|---|---|---|---|---|
| src/Teaio.h:223 | `__teaioOpenOutput` gets `_args->inputFile`, so the output format is guessed from the input file name | `-i in.mkv -o out.xyz` where `.xyz` has no muxer: the run goes ahead in the input's format instead of failing with ALLOCATION_ERROR | guess the format from `_args->outputFile` | high, not executed | Remux.RemuxFormatFromInputPath | Remux.RemuxIntendedRejectsUnknownFormat |
| src/Teaio.h:254 | `iFormatContext->streams[packet->stream_index]` is read before the range check on line 255 | a packet whose `stream_index` equals `nb_streams` | read the table entry only after the check | low (libav normally delivers in-range indices), not executed | Packets.StepAsWrittenReadsOutOfRange | Packets.StepChecked |

Both entry points share `Run`, which takes the format path as a parameter.
`Remux` passes the input path, as written. `RemuxIntended` passes the output path.
Every property proved about `Run` holds for both. The copy loop routes packets
only through `Target`, which reads the map after the range check, as `StepChecked` does.

=== FILE: args.dfy ===
/** Command-line splitting: `teaioSplitArgs` and `__TeaioArgs_complete`.
    `argv` is the token list including the program name; the NULL that ends
    after the last token is the end of the sequence. */
module Arguments {

  import opened Options
  import opened Errors

  /** `TeaioArgs`: the two paths are NULL (`None`) until an option sets them. */
  datatype TeaioArgs = TeaioArgs(inputFile: Option<string>, outputFile: Option<string>, verbose: bool)

  /** The value-initialised record `TeaioArgs args{}`. */
  const Unset := TeaioArgs(None, None, false)

  /** Fewer entries than this (program name plus four tokens) are refused unscanned. */
  const MinArgc := 5

  predicate IsFlag(token: string) {
    token == "-i" || token == "-o" || token == "-v"
  }

  /** `__TeaioArgs_complete`: SUCCESS when both paths are set, FAILURE otherwise. */
  function Complete(args: TeaioArgs): (e: Errno)
    ensures e == Success <==> args.inputFile.Some? && args.outputFile.Some?
    ensures e != Success ==> e == Failure
  {
    if args.inputFile.Some? && args.outputFile.Some? then Success else Failure
  }

  /** The scanning loop, started at the token `tokens[0]`. `-i` and `-o` take the
      following token as their value and skip it; `-v` sets `verbose`; anything
      else is ignored. The loop stops when the token after the current one is the
      terminating NULL. A `-i` or `-o` that the scan reaches as a flag in last
      position takes that NULL as its value, and the next check then reads beyond
      the end of `argv`: `None`. */
  function Scan(tokens: seq<string>, acc: TeaioArgs): (r: Option<TeaioArgs>)
    requires |tokens| > 0
    ensures r.None? ==> tokens[|tokens| - 1] == "-i" || tokens[|tokens| - 1] == "-o"
    decreases |tokens|
  {
    var token := tokens[0];
    if token == "-i" || token == "-o" then
      if |tokens| == 1 then None
      else
        var next := if token == "-i" then acc.(inputFile := Some(tokens[1])) else acc.(outputFile := Some(tokens[1]));
        if |tokens| == 2 then Some(next) else Scan(tokens[2..], next)
    else
      var next := if token == "-v" then acc.(verbose := true) else acc;
      if |tokens| == 1 then Some(next) else Scan(tokens[1..], next)
  }

  /** Where the scanned values come from: a path that changed is the token right
      after some `-i` (or `-o`), and `verbose` is only ever switched on, by a `-v`. */
  lemma {:induction false} ScanProvenance(tokens: seq<string>, acc: TeaioArgs)
    requires |tokens| > 0
    ensures Scan(tokens, acc).Some? ==> FromFlag(tokens, "-i", acc.inputFile, Scan(tokens, acc).value.inputFile)
    ensures Scan(tokens, acc).Some? ==> FromFlag(tokens, "-o", acc.outputFile, Scan(tokens, acc).value.outputFile)
    ensures Scan(tokens, acc).Some? ==>
      (acc.verbose ==> Scan(tokens, acc).value.verbose) &&
      (Scan(tokens, acc).value.verbose ==> acc.verbose || "-v" in tokens)
    decreases |tokens|
  {
    var token := tokens[0];
    if |tokens| > 1 {
      var skip := if token == "-i" || token == "-o" then 2 else 1;
      if skip < |tokens| {
        var next := if token == "-i" then acc.(inputFile := Some(tokens[1]))
          else if token == "-o" then acc.(outputFile := Some(tokens[1]))
          else if token == "-v" then acc.(verbose := true)
          else acc;
        var tail := tokens[skip..];
        assert Scan(tokens, acc) == Scan(tail, next);
        ScanProvenance(tail, next);
        FromFlagShift(tokens, skip, "-i", acc.inputFile, next.inputFile, Scan(tokens, acc));
        FromFlagShift(tokens, skip, "-o", acc.outputFile, next.outputFile, Scan(tokens, acc));
        if Scan(tokens, acc).Some? && Scan(tokens, acc).value.verbose && !next.verbose {
          assert "-v" in tail;
          assert tail[0] in tokens;
        }
      }
    }
  }

  /** `after` is `before`, or the token right after some occurrence of `flag`. */
  ghost predicate FromFlag(tokens: seq<string>, flag: string, before: Option<string>, after: Option<string>) {
    after == before || exists j :: 0 <= j < |tokens| - 1 && tokens[j] == flag && after == Some(tokens[j + 1])
  }

  lemma FromFlagShift(tokens: seq<string>, skip: nat, flag: string, before: Option<string>, mid: Option<string>, r: Option<TeaioArgs>)
    requires 0 < skip < |tokens|
    requires mid == before || (skip == 2 && tokens[0] == flag && mid == Some(tokens[1]))
    requires r.Some? ==> FromFlag(tokens[skip..], flag, mid, if flag == "-i" then r.value.inputFile else r.value.outputFile)
    ensures r.Some? ==> FromFlag(tokens, flag, before, if flag == "-i" then r.value.inputFile else r.value.outputFile)
  {
  }

  /** The outcome of `teaioSplitArgs`: the filled record and the error kind it
      leaves in `*_error` (SUCCESS, as the only caller initialises it, when it sets none). */
  datatype Split = Split(args: TeaioArgs, error: Errno)

  /** `teaioSplitArgs(argc, argv)` with `argc == |argv|`; `None` when the scan
      would read beyond the end of `argv`. */
  function SplitArgs(argv: seq<string>): (r: Option<Split>)
    ensures |argv| < MinArgc ==> r == Some(Split(Unset, MissingArguments))
    ensures r.None? ==> |argv| >= MinArgc && (argv[|argv| - 1] == "-i" || argv[|argv| - 1] == "-o")
    ensures r.Some? ==> r.value.error == Success || r.value.error == MissingArguments
    ensures r.Some? ==> (r.value.error == Success <==> r.value.args.inputFile.Some? && r.value.args.outputFile.Some?)
  {
    if |argv| < MinArgc then Some(Split(Unset, MissingArguments))
    else
      match Scan(argv, Unset)
      case None => None
      case Some(args) => Some(Split(args, if Complete(args) == Success then Success else MissingArguments))
  }

  /** A well-formed command line, one option at a time: the reference the scanner is judged by. */
  datatype Opt = Input(path: string) | Output(path: string) | Verbose | Word(token: string)

  function RenderOpt(o: Opt): (tokens: seq<string>)
    ensures |tokens| > 0
  {
    match o
    case Input(p) => ["-i", p]
    case Output(p) => ["-o", p]
    case Verbose => ["-v"]
    case Word(t) => [t]
  }

  function Render(opts: seq<Opt>): (tokens: seq<string>)
    ensures |opts| > 0 ==> |tokens| > 0
  {
    if opts == [] then [] else RenderOpt(opts[0]) + Render(opts[1..])
  }

  /** Free-standing words are not themselves flags (values after `-i`/`-o` may be anything). */
  predicate PlainWords(opts: seq<Opt>) {
    forall k :: 0 <= k < |opts| ==> (opts[k].Word? ==> !IsFlag(opts[k].token))
  }

  /** The meaning of a command line: options apply left to right, the last `-i`
      and the last `-o` win, and `-v` anywhere turns verbosity on. */
  function ApplyOpt(o: Opt, acc: TeaioArgs): TeaioArgs {
    match o
    case Input(p) => acc.(inputFile := Some(p))
    case Output(p) => acc.(outputFile := Some(p))
    case Verbose => acc.(verbose := true)
    case Word(_) => acc
  }

  function Apply(opts: seq<Opt>, acc: TeaioArgs): TeaioArgs
    decreases |opts|
  {
    if opts == [] then acc else Apply(opts[1..], ApplyOpt(opts[0], acc))
  }

  /** The scanner reads back exactly what a well-formed command line says. */
  lemma {:induction false} ScanRender(opts: seq<Opt>, acc: TeaioArgs)
    requires |opts| > 0 && PlainWords(opts)
    ensures Scan(Render(opts), acc) == Some(Apply(opts, acc))
    decreases |opts|
  {
    var head := RenderOpt(opts[0]);
    var rest := opts[1..];
    var tokens := Render(opts);
    assert tokens == head + Render(rest);
    assert PlainWords(rest) by {
      forall k | 0 <= k < |rest| ensures rest[k].Word? ==> !IsFlag(rest[k].token) {
        assert rest[k] == opts[k + 1];
      }
    }
    var next := ApplyOpt(opts[0], acc);
    assert Apply(opts, acc) == Apply(rest, next);
    if rest == [] {
      assert tokens == head;
    } else {
      ScanRender(rest, next);
      assert tokens[|head|..] == Render(rest);
      match opts[0]
      case Input(p) =>
        assert tokens[0] == "-i" && tokens[1] == p && |tokens| > 2;
      case Output(p) =>
        assert tokens[0] == "-o" && tokens[1] == p && |tokens| > 2;
      case Verbose =>
        assert tokens[0] == "-v" && |tokens| > 1;
      case Word(t) =>
        assert tokens[0] == t && !IsFlag(t) && |tokens| > 1;
    }
  }

  /** The usual invocation `prog -i <input> -o <output> [-v]` is split into a complete record. */
  lemma CanonicalCommandLine(prog: string, input: string, output: string, verbose: bool)
    requires !IsFlag(prog)
    ensures SplitArgs([prog, "-i", input, "-o", output] + (if verbose then ["-v"] else []))
            == Some(Split(TeaioArgs(Some(input), Some(output), verbose), Success))
  {
    var opts := [Word(prog), Input(input), Output(output)] + (if verbose then [Verbose] else []);
    assert Render(opts[3..]) == (if verbose then ["-v"] else []);
    assert Render(opts[2..]) == ["-o", output] + Render(opts[3..]);
    assert Render(opts[1..]) == ["-i", input] + Render(opts[2..]);
    assert Render(opts) == [prog] + Render(opts[1..]);
    assert Render(opts) == [prog, "-i", input, "-o", output] + (if verbose then ["-v"] else []);
    ScanRender(opts, Unset);
    assert opts[1..][1..] == opts[2..] && opts[2..][1..] == opts[3..];
    var a1 := ApplyOpt(Word(prog), Unset);
    var a2 := ApplyOpt(Input(input), a1);
    var a3 := ApplyOpt(Output(output), a2);
    assert Apply(opts, Unset) == Apply(opts[1..], a1) == Apply(opts[2..], a2) == Apply(opts[3..], a3);
    if verbose {
      assert opts[3..] == [Verbose] && opts[3..][1..] == [];
      assert Apply(opts[3..], a3) == Apply([], a3.(verbose := true));
    } else {
      assert opts[3..] == [];
    }
  }

  /** On any well-formed command line, `teaioSplitArgs` returns the record the
      options mean, and reports MISSING_ARGUMENTS exactly when a path is missing. */
  lemma SplitArgsRender(opts: seq<Opt>)
    requires |opts| > 0 && PlainWords(opts) && |Render(opts)| >= MinArgc
    ensures SplitArgs(Render(opts)) ==
      Some(Split(Apply(opts, Unset), if Complete(Apply(opts, Unset)) == Success then Success else MissingArguments))
  {
    ScanRender(opts, Unset);
  }

  /** A `-i` or `-o` that the scan reaches as a flag in last position has no value
      to take: after any well-formed command line, the scan would read past the end
      of `argv`. */
  lemma {:induction false} TrailingFlagReadsPastEnd(opts: seq<Opt>, flag: string, acc: TeaioArgs)
    requires PlainWords(opts) && (flag == "-i" || flag == "-o")
    ensures Scan(Render(opts) + [flag], acc) == None
    decreases |opts|
  {
    if opts != [] {
      var head := RenderOpt(opts[0]);
      var rest := opts[1..];
      var tokens := Render(opts) + [flag];
      assert tokens == head + (Render(rest) + [flag]);
      assert PlainWords(rest) by {
        forall k | 0 <= k < |rest| ensures rest[k].Word? ==> !IsFlag(rest[k].token) {
          assert rest[k] == opts[k + 1];
        }
      }
      TrailingFlagReadsPastEnd(rest, flag, ApplyOpt(opts[0], acc));
      assert tokens[|head|..] == Render(rest) + [flag];
      match opts[0]
      case Input(p) =>
        assert tokens[0] == "-i" && tokens[1] == p && |tokens| > 2;
      case Output(p) =>
        assert tokens[0] == "-o" && tokens[1] == p && |tokens| > 2;
      case Verbose =>
        assert tokens[0] == "-v" && |tokens| > 1;
      case Word(t) =>
        assert tokens[0] == t && !IsFlag(t) && |tokens| > 1;
    }
  }

  /** Reads any token list as the option list it spells, flagging a final `-i`
      or `-o` left without a value. */
  function Parse(tokens: seq<string>): (r: (seq<Opt>, bool))
    decreases |tokens|
  {
    if tokens == [] then ([], false)
    else
      var token := tokens[0];
      if token == "-i" || token == "-o" then
        if |tokens| == 1 then ([], true)
        else
          var rest := Parse(tokens[2..]);
          ([if token == "-i" then Input(tokens[1]) else Output(tokens[1])] + rest.0, rest.1)
      else
        var rest := Parse(tokens[1..]);
        ([if token == "-v" then Verbose else Word(token)] + rest.0, rest.1)
  }

  /** Every token list is a well-formed command line, possibly followed by one
      `-i` or `-o` that has no value. */
  lemma {:induction false} ParseRender(tokens: seq<string>)
    ensures PlainWords(Parse(tokens).0)
    ensures Parse(tokens).1 ==> |tokens| > 0 && (tokens[|tokens| - 1] == "-i" || tokens[|tokens| - 1] == "-o")
    ensures tokens == Render(Parse(tokens).0) + (if Parse(tokens).1 then [tokens[|tokens| - 1]] else [])
    decreases |tokens|
  {
    if tokens == [] || ((tokens[0] == "-i" || tokens[0] == "-o") && |tokens| == 1) {
      return;
    }
    var skip := if tokens[0] == "-i" || tokens[0] == "-o" then 2 else 1;
    var tail := tokens[skip..];
    ParseRender(tail);
    var head := ParseStep(tokens);
    var inner := Parse(tail);
    PlainWordsCons(head, inner.0);
    RenderCons(head, inner.0);
    var last := if inner.1 then [tail[|tail| - 1]] else [];
    assert tokens == RenderOpt(head) + (Render(inner.0) + last);
  }

  /** One step of `Parse`: the option the first tokens spell, and the rest. */
  lemma ParseStep(tokens: seq<string>) returns (head: Opt)
    requires tokens != [] && !((tokens[0] == "-i" || tokens[0] == "-o") && |tokens| == 1)
    ensures |RenderOpt(head)| <= |tokens| && tokens == RenderOpt(head) + tokens[|RenderOpt(head)|..]
    ensures |RenderOpt(head)| == (if tokens[0] == "-i" || tokens[0] == "-o" then 2 else 1)
    ensures head.Word? ==> !IsFlag(head.token)
    ensures Parse(tokens) == ([head] + Parse(tokens[|RenderOpt(head)|..]).0, Parse(tokens[|RenderOpt(head)|..]).1)
  {
    var token := tokens[0];
    head := if token == "-i" then Input(tokens[1]) else if token == "-o" then Output(tokens[1])
            else if token == "-v" then Verbose else Word(token);
    assert tokens == tokens[..|RenderOpt(head)|] + tokens[|RenderOpt(head)|..];
  }

  lemma RenderCons(head: Opt, rest: seq<Opt>)
    ensures Render([head] + rest) == RenderOpt(head) + Render(rest)
  {
    assert ([head] + rest)[1..] == rest;
  }

  lemma PlainWordsCons(head: Opt, rest: seq<Opt>)
    requires head.Word? ==> !IsFlag(head.token)
    requires PlainWords(rest)
    ensures PlainWords([head] + rest)
  {
    var opts := [head] + rest;
    forall k | 0 <= k < |opts| ensures opts[k].Word? ==> !IsFlag(opts[k].token) {
      if k > 0 { assert opts[k] == rest[k - 1]; }
    }
  }

  /** The scanner's result on every `argv`: `None` exactly when a final `-i` or
      `-o` is left without a value, and otherwise the meaning of the options. */
  lemma ScanParse(tokens: seq<string>, acc: TeaioArgs)
    requires |tokens| > 0
    ensures Scan(tokens, acc) == if Parse(tokens).1 then None else Some(Apply(Parse(tokens).0, acc))
  {
    ParseRender(tokens);
    var opts := Parse(tokens).0;
    if Parse(tokens).1 {
      TrailingFlagReadsPastEnd(opts, tokens[|tokens| - 1], acc);
    } else {
      ScanRender(opts, acc);
    }
  }

  /** A trailing `-o` that the scan takes as the value of the `-i` before it is
      read normally: the loop stops at the terminating NULL. */
  lemma TrailingFlagTakenAsValue()
    ensures SplitArgs(["prog", "a", "b", "-i", "-o"]) == Some(Split(TeaioArgs(Some("-o"), None, false), MissingArguments))
  {
  }

  /** A trailing `-i` reached as a flag, on a command line long enough to be scanned. */
  lemma TrailingInputFlagReadsPastEnd()
    ensures SplitArgs(["teaio", "-o", "out.mp4", "in.mkv", "-i"]) == None
  {
  }

}

=== FILE: decimal.dfy ===
/** Decimal rendering of integers, as the `%d` conversion of `sprintf` prints them,
    together with the parser that undoes it. */
module Decimal {

  import opened Options

  predicate IsDigit(c: char) {
    '0' <= c <= '9'
  }

  predicate AllDigits(s: string) {
    forall i :: 0 <= i < |s| ==> IsDigit(s[i])
  }

  function DigitChar(d: nat): (c: char)
    requires d < 10
    ensures IsDigit(c)
  {
    ('0' as int + d) as char
  }

  function DigitValue(c: char): (d: nat)
    requires IsDigit(c)
    ensures d < 10
    ensures DigitChar(d) == c
  {
    c as int - '0' as int
  }

  /** The digits of `n`, most significant first, with no leading zeros. */
  function NatToString(n: nat): (s: string)
    ensures |s| > 0 && AllDigits(s)
    ensures |s| > 1 ==> s[0] != '0'
    decreases n
  {
    if n < 10 then [DigitChar(n)] else NatToString(n / 10) + [DigitChar(n % 10)]
  }

  /** `%d`: an optional minus sign followed by the digits of the magnitude. */
  function IntToString(n: int): (s: string)
    ensures |s| > 0
    ensures s[0] == '-' <==> n < 0
  {
    if n < 0 then "-" + NatToString(-n) else NatToString(n)
  }

  /** The value of a digit string read most significant digit first. */
  function DigitsValue(s: string): nat
    requires AllDigits(s)
    decreases |s|
  {
    if s == [] then 0 else DigitsValue(s[..|s| - 1]) * 10 + DigitValue(s[|s| - 1])
  }

  /** Reads an optionally signed decimal integer; anything else is rejected. */
  function ParseInt(s: string): (r: Option<int>)
    ensures r.Some? ==> |s| > 0
    ensures r.Some? && s[0] != '-' ==> r.value >= 0
  {
    if |s| > 1 && s[0] == '-' && AllDigits(s[1..]) then Some(0 - DigitsValue(s[1..]) as int)
    else if |s| > 0 && AllDigits(s) then Some(DigitsValue(s))
    else None
  }

  lemma {:induction false} NatToStringRoundTrip(n: nat)
    ensures DigitsValue(NatToString(n)) == n
    decreases n
  {
    if n >= 10 {
      NatToStringRoundTrip(n / 10);
      var s := NatToString(n);
      assert s[..|s| - 1] == NatToString(n / 10);
      assert DigitValue(s[|s| - 1]) == n % 10 by {
        assert s[|s| - 1] == DigitChar(n % 10);
      }
    } else {
      assert DigitValue(DigitChar(n)) == n;
    }
  }

  /** Printing with `%d` and parsing back gives the number that was printed. */
  lemma IntToStringRoundTrip(n: int)
    ensures ParseInt(IntToString(n)) == Some(n)
  {
    if n < 0 {
      NatToStringRoundTrip(-n);
      var s := IntToString(n);
      assert s[1..] == NatToString(-n);
    } else {
      NatToStringRoundTrip(n);
    }
  }

}

=== FILE: errors.dfy ===
/** The tool's error kinds (`enum Errno`) and their names (`teaioGetErrnoString`).
    Only the kind of an error is modelled; the 256-byte message text is not. */
module Errors {

  import opened Options
  import Decimal

  /** The enumerators in declaration order; C++ gives them the values 0 to 5. */
  datatype Errno = Success | Failure | MissingArguments | InvalidArguments | FileError | AllocationError

  /** `TEAIO_FAILED`: every kind other than `Success` is a failure. */
  function IsFailed(e: Errno): (failed: bool)
    ensures failed <==> Code(e) != 0
  {
    e != Success
  }

  /** The integer value of an enumerator. */
  function Code(e: Errno): (c: nat)
    ensures c < 6
  {
    match e
    case Success => 0
    case Failure => 1
    case MissingArguments => 2
    case InvalidArguments => 3
    case FileError => 4
    case AllocationError => 5
  }

  /** The enumerator an integer value stands for, if any. */
  function FromCode(c: int): (r: Option<Errno>)
    ensures r.Some? <==> 0 <= c < 6
    ensures r.Some? ==> Code(r.value) == c
  {
    if c == 0 then Some(Success)
    else if c == 1 then Some(Failure)
    else if c == 2 then Some(MissingArguments)
    else if c == 3 then Some(InvalidArguments)
    else if c == 4 then Some(FileError)
    else if c == 5 then Some(AllocationError)
    else None
  }

  lemma CodeRoundTrip(e: Errno)
    ensures FromCode(Code(e)) == Some(e)
  {
  }

  /** The fixed name of each enumerator (the named cases of the switch). */
  function KindName(e: Errno): string {
    match e
    case Success => "Success"
    case Failure => "Failure"
    case MissingArguments => "Missing arguments"
    case InvalidArguments => "Invalid arguments"
    case FileError => "File error"
    case AllocationError => "Allocation error"
  }

  const UnknownPrefix := "Unknown Error "

  /** `teaioGetErrnoString` applied to any integer value of the enum type: the six
      enumerators get their fixed names, every other value the `default` text. */
  function ErrnoString(code: int): (s: string)
    ensures |s| > 0
    ensures 0 <= code < 6 ==> s == KindName(FromCode(code).value)
    ensures !(0 <= code < 6) ==> |s| > |UnknownPrefix| && s[..|UnknownPrefix|] == UnknownPrefix
  {
    match FromCode(code)
    case Some(e) => KindName(e)
    case None => UnknownPrefix + Decimal.IntToString(code)
  }

  /** Reads a name produced by `ErrnoString` back to the value it names. */
  function CodeOfName(s: string): Option<int> {
    if s == "Success" then Some(0)
    else if s == "Failure" then Some(1)
    else if s == "Missing arguments" then Some(2)
    else if s == "Invalid arguments" then Some(3)
    else if s == "File error" then Some(4)
    else if s == "Allocation error" then Some(5)
    else if |s| > |UnknownPrefix| && s[..|UnknownPrefix|] == UnknownPrefix then
      match Decimal.ParseInt(s[|UnknownPrefix|..])
      case Some(c) => if 0 <= c < 6 then None else Some(c)
      case None => None
    else None
  }

  /** The mapping is total and loses nothing: every value's name, known or not,
      identifies that value. In particular no two values share a name. */
  lemma ErrnoStringIdentifiesCode(code: int)
    ensures CodeOfName(ErrnoString(code)) == Some(code)
  {
    var s := ErrnoString(code);
    if !(0 <= code < 6) {
      var digits := Decimal.IntToString(code);
      assert s[|UnknownPrefix|..] == digits;
      Decimal.IntToStringRoundTrip(code);
      assert s[0] == 'U';
    }
  }

  lemma ErrnoStringInjective(a: int, b: int)
    ensures ErrnoString(a) == ErrnoString(b) ==> a == b
  {
    ErrnoStringIdentifiesCode(a);
    ErrnoStringIdentifiesCode(b);
  }

}

=== FILE: options.dfy ===
/** The optional value used wherever the C++ code uses a possibly-NULL pointer. */
module Options {

  datatype Option<+T> = None | Some(value: T)

}

=== FILE: packets.dfy ===
/** The packet copy loop of `teaioRemux` (lines 248-270): each packet read is
    discarded or forwarded to the output stream its map entry names. */
module Packets {

  import opened Options

  /** Presentation and decoding time and duration, in some stream's time base. */
  datatype Timing = Timing(pts: int, dts: int, duration: int)

  /** A demuxed packet; its payload is carried along untouched. */
  datatype Packet = Packet(streamIndex: int, timing: Timing, data: seq<int>)

  /** `av_packet_rescale_ts`, given the source and destination stream indices
      (which determine the two time bases). The library's rounding is not modelled. */
  type Rescale = (Timing, int, int) -> Timing

  /** Lines 255-260: the output stream a packet goes to, or `None` when its index
      is outside the input stream table (a negative index compares as a huge
      unsigned value against `nb_streams`) or its map entry is negative. */
  function Target(streamMap: seq<int>, p: Packet): (r: Option<nat>)
    ensures r.Some? <==> 0 <= p.streamIndex < |streamMap| && streamMap[p.streamIndex] >= 0
    ensures r.Some? ==> r.value == streamMap[p.streamIndex]
  {
    if 0 <= p.streamIndex < |streamMap| && streamMap[p.streamIndex] >= 0 then Some(streamMap[p.streamIndex])
    else None
  }

  /** The packet handed to `av_write_frame`: renumbered, payload unchanged, and
      timestamps rescaled from the time base of the packet's input stream (line
      254) to that of its output stream (line 261), as line 264 does. */
  function Forward(p: Packet, target: nat, rescale: Rescale): (q: Packet)
    ensures q.streamIndex == target && q.data == p.data
    ensures q.timing == rescale(p.timing, p.streamIndex, target)
  {
    Packet(target, rescale(p.timing, p.streamIndex, target), p.data)
  }

  /** The reference: every packet that has a target, forwarded, in reading order. */
  function Forwarded(streamMap: seq<int>, rescale: Rescale, packets: seq<Packet>): seq<Packet>
    decreases |packets|
  {
    if packets == [] then []
    else
      var rest := Forwarded(streamMap, rescale, packets[1..]);
      match Target(streamMap, packets[0])
      case Some(t) => [Forward(packets[0], t, rescale)] + rest
      case None => rest
  }

  /** The packets submitted to `av_write_frame` (the failing one included) and
      whether a write failed. */
  datatype CopyOutcome = CopyOutcome(submitted: seq<Packet>, writeFailed: bool)

  /** The loop over the packets `av_read_frame` delivers before it reports the end
      (or an error). `failAt` is the number of the first `av_write_frame` call that
      fails, counted from 0 over the whole loop; `attempts` the calls made so far.
      A failed write ends the loop; so does the end of the input. */
  function CopyLoop(streamMap: seq<int>, rescale: Rescale, packets: seq<Packet>,
                    failAt: Option<nat>, attempts: nat): (r: CopyOutcome)
    ensures r.submitted <= Forwarded(streamMap, rescale, packets)
    ensures r.writeFailed <==>
      failAt.Some? && attempts <= failAt.value < attempts + |Forwarded(streamMap, rescale, packets)|
    ensures r.writeFailed ==> |r.submitted| == failAt.value - attempts + 1
    ensures !r.writeFailed ==> r.submitted == Forwarded(streamMap, rescale, packets)
    decreases |packets|
  {
    if packets == [] then CopyOutcome([], false)
    else
      match Target(streamMap, packets[0])
      case None => CopyLoop(streamMap, rescale, packets[1..], failAt, attempts)
      case Some(t) =>
        var q := Forward(packets[0], t, rescale);
        if failAt == Some(attempts) then CopyOutcome([q], true)
        else
          var rest := CopyLoop(streamMap, rescale, packets[1..], failAt, attempts + 1);
          CopyOutcome([q] + rest.submitted, rest.writeFailed)
  }

  /** Every forwarded packet goes to a stream that is the entry of some input stream. */
  lemma {:induction false} ForwardedTargets(streamMap: seq<int>, rescale: Rescale, packets: seq<Packet>)
    ensures forall q :: q in Forwarded(streamMap, rescale, packets) ==>
      exists i :: 0 <= i < |streamMap| && streamMap[i] >= 0 && q.streamIndex == streamMap[i]
    decreases |packets|
  {
    if packets != [] {
      ForwardedTargets(streamMap, rescale, packets[1..]);
    }
  }

  /** The packets read that have a target, in reading order. */
  function Routable(streamMap: seq<int>, packets: seq<Packet>): seq<Packet>
    decreases |packets|
  {
    if packets == [] then []
    else (if Target(streamMap, packets[0]).Some? then [packets[0]] else []) + Routable(streamMap, packets[1..])
  }

  /** Forwarding keeps each routable packet's payload and puts it where its
      map entry says, in reading order. */
  lemma {:induction false} ForwardedMatchesRoutable(streamMap: seq<int>, rescale: Rescale, packets: seq<Packet>)
    ensures |Forwarded(streamMap, rescale, packets)| == |Routable(streamMap, packets)|
    ensures forall k :: 0 <= k < |Routable(streamMap, packets)| ==>
      var p := Routable(streamMap, packets)[k];
      && 0 <= p.streamIndex < |streamMap| && streamMap[p.streamIndex] >= 0
      && Forwarded(streamMap, rescale, packets)[k] == Forward(p, streamMap[p.streamIndex], rescale)
    decreases |packets|
  {
    if packets != [] {
      ForwardedMatchesRoutable(streamMap, rescale, packets[1..]);
    }
  }

  /** What one iteration touches: the input stream table entry it reads, if any,
      and the output stream the packet goes to, if any. */
  datatype Step = Step(tableRead: Option<int>, target: Option<nat>)

  /** Lines 254-258 as written: `iFormatContext->streams[packet->stream_index]`
      is read before the index is checked against `nb_streams` (the map's length). */
  function StepAsWritten(streamMap: seq<int>, p: Packet): (s: Step)
    ensures s.target == StepChecked(streamMap, p).target
    ensures s.tableRead != StepChecked(streamMap, p).tableRead <==> Target(streamMap, p).None?
    ensures !(0 <= p.streamIndex < |streamMap|) ==>
      s.target.None? && s.tableRead.Some? && !(0 <= s.tableRead.value < |streamMap|)
  {
    Step(Some(p.streamIndex), Target(streamMap, p))
  }

  /** The same iteration with the table read moved after the check. */
  function StepChecked(streamMap: seq<int>, p: Packet): (s: Step)
    ensures s.target == Target(streamMap, p)
    ensures s.tableRead.Some? ==> 0 <= s.tableRead.value < |streamMap|
    ensures s.target.Some? ==> s.tableRead == Some(p.streamIndex)
  {
    var t := Target(streamMap, p);
    Step(if t.Some? then Some(p.streamIndex) else None, t)
  }

  /** A packet whose index is out of range is discarded, but only after the table
      entry at that index has been read. */
  lemma StepAsWrittenReadsOutOfRange(streamMap: seq<int>, timing: Timing, data: seq<int>)
    ensures var s := StepAsWritten(streamMap, Packet(|streamMap|, timing, data));
            s.target.None? && s.tableRead == Some(|streamMap|)
  {
  }

}

=== FILE: remux.dfy ===
/** `teaioRemux`: the remux run as a chain of fallible library calls followed by
    the `free:` block, with every library call replaced by an outcome taken from
    an environment record. The run reports the error kind, a trace of resource
    acquisitions and releases, the output streams, and the packets written. */
module Remux {

  import opened Options
  import opened Errors
  import opened Arguments
  import opened Streams
  import opened Packets

  /** The format `avformat_alloc_output_context2` guesses; `noFile` is `AVFMT_NOFILE`. */
  datatype OutFormat = OutFormat(name: string, noFile: bool)

  /** What one run allocates and must give back. */
  datatype Resource = PacketBuffer | InputContext | OutputContext | OutputIo | StreamMapBuffer

  /** An allocation, a release, or the entry into the `free:` block. */
  datatype Event = Acquire(res: Resource) | Release(res: Resource) | Cleanup

  /** The outcomes of the library calls one run makes. */
  datatype Env = Env(
    packetAllocOk: bool,                     // av_packet_alloc
    input: Option<seq<CodecParams>>,         // avformat_open_input: the streams, or None on failure
    streamInfoOk: bool,                      // avformat_find_stream_info
    formatFor: string -> Option<OutFormat>,  // avformat_alloc_output_context2, by file name
    mapAllocOk: bool,                        // calloc of the stream map
    streamFaults: seq<StreamFault>,          // avformat_new_stream / avcodec_parameters_copy
    ioOpens: string -> bool,                 // avio_open, by file name
    headerOk: bool,                          // avformat_write_header
    packets: seq<Packet>,                    // av_read_frame, until it returns < 0
    writeFailAt: Option<nat>,                // number of the first av_write_frame call that fails
    rescale: Rescale,                        // av_packet_rescale_ts
    trailerOk: bool)                         // av_write_trailer

  /** The state of a run when it reaches `free:`: the error kind, the resources
      held in the order they were acquired, the output context (with its format)
      if one was allocated, the output streams, the packets submitted, and whether
      the trailer write was attempted. */
  datatype Progress = Progress(error: Errno, acquired: seq<Resource>, output: Option<OutFormat>,
                               outStreams: seq<OutStream>, submitted: seq<Packet>, trailerAttempted: bool)

  datatype RunResult = RunResult(error: Errno, trace: seq<Event>, outStreams: seq<OutStream>,
                                 submitted: seq<Packet>, trailerAttempted: bool)

  // The states a run passes through, each including the ones before it.

  predicate InputOpened(env: Env) {
    env.packetAllocOk && env.input.Some? && env.streamInfoOk
  }

  predicate OutputAllocated(formatPath: string, env: Env) {
    InputOpened(env) && env.formatFor(formatPath).Some?
  }

  predicate StreamsMapped(formatPath: string, env: Env) {
    OutputAllocated(formatPath, env) && env.mapAllocOk
    && StopIndex(env.input.value, env.streamFaults) == |env.input.value|
  }

  predicate HeaderWritten(formatPath: string, ioPath: string, env: Env) {
    StreamsMapped(formatPath, env)
    && (env.formatFor(formatPath).value.noFile || env.ioOpens(ioPath))
    && env.headerOk
  }

  /** Lines 216-276: from the opened packet to the `free:` label. `formatPath` is
      the name the output format is guessed from, `ioPath` the file `avio_open` opens. */
  function Stages(formatPath: string, ioPath: string, env: Env): (p: Progress)
    requires env.packetAllocOk
    ensures |p.acquired| > 0 && p.acquired[0] == PacketBuffer
    ensures forall i, j :: 0 <= i < j < |p.acquired| ==> p.acquired[i] != p.acquired[j]
    ensures p.output.Some? <==> OutputContext in p.acquired
    ensures OutputIo in p.acquired ==> p.output.Some? && !p.output.value.noFile
  {
    if env.input.None? then
      Progress(FileError, [PacketBuffer], None, [], [], false)
    else if !env.streamInfoOk then
      Progress(FileError, [PacketBuffer, InputContext], None, [], [], false)
    else
      match env.formatFor(formatPath)
      case None =>
        Progress(AllocationError, [PacketBuffer, InputContext], None, [], [], false)
      case Some(fmt) =>
        var mapped := MapStreams(env.input.value, env.mapAllocOk, env.streamFaults);
        var held := [PacketBuffer, InputContext, OutputContext]
                    + (if mapped.streamMap.Some? then [StreamMapBuffer] else []);
        if IsFailed(mapped.error) then
          Progress(mapped.error, held, Some(fmt), mapped.created, [], false)
        else if !fmt.noFile && !env.ioOpens(ioPath) then
          Progress(FileError, held, Some(fmt), mapped.created, [], false)
        else
          var withIo := held + (if fmt.noFile then [] else [OutputIo]);
          if !env.headerOk then
            Progress(FileError, withIo, Some(fmt), mapped.created, [], false)
          else
            var copy := CopyLoop(mapped.streamMap.value, env.rescale, env.packets, env.writeFailAt, 0);
            Progress(if env.trailerOk then Success else FileError, withIo, Some(fmt), mapped.created, copy.submitted, true)
  }

  function AcquireEvents(acquired: seq<Resource>): (t: seq<Event>)
    ensures |t| == |acquired|
    ensures forall i :: 0 <= i < |t| ==> t[i] == Acquire(acquired[i])
  {
    seq(|acquired|, i requires 0 <= i < |acquired| => Acquire(acquired[i]))
  }

  /** Lines 278-286. Each call there is a no-op on a NULL handle, so only held
      resources produce a release. The I/O handle is closed only when the output
      context exists and its format is not `AVFMT_NOFILE`. */
  function FreeBlock(acquired: seq<Resource>, output: Option<OutFormat>): seq<Event> {
    ReleaseIf(PacketBuffer in acquired, PacketBuffer)
    + ReleaseIf(InputContext in acquired, InputContext)
    + ReleaseIf(output.Some? && !output.value.noFile && OutputIo in acquired, OutputIo)
    + ReleaseIf(output.Some?, OutputContext)
    + ReleaseIf(StreamMapBuffer in acquired, StreamMapBuffer)
  }

  function ReleaseIf(held: bool, res: Resource): seq<Event> {
    if held then [Release(res)] else []
  }

  /** The whole of `teaioRemux` with the output format guessed from `formatPath`
      and the output file opened at `ioPath`. A failed packet allocation returns
      before anything else is acquired; every later exit goes through `free:`. */
  function Run(formatPath: string, ioPath: string, env: Env): (r: RunResult)
    ensures !env.packetAllocOk ==> r.error == AllocationError && r.trace == []
    ensures r.error == Success <==> HeaderWritten(formatPath, ioPath, env) && env.trailerOk
    ensures r.trailerAttempted <==> HeaderWritten(formatPath, ioPath, env)
    ensures !r.trailerAttempted ==> r.submitted == []
  {
    if !env.packetAllocOk then RunResult(AllocationError, [], [], [], false)
    else
      var p := Stages(formatPath, ioPath, env);
      RunResult(p.error, ScopeTrace(p.acquired, p.output),
                p.outStreams, p.submitted, p.trailerAttempted)
  }

  /** `teaioRemux` as written: line 223 passes the INPUT path to `__teaioOpenOutput`,
      so the output format is guessed from the input file's name. */
  function Remux(args: TeaioArgs, env: Env): (r: RunResult)
    requires args.inputFile.Some? && args.outputFile.Some?
    ensures r.error == Success <==> HeaderWritten(args.inputFile.value, args.outputFile.value, env) && env.trailerOk
  {
    Run(args.inputFile.value, args.outputFile.value, env)
  }

  /** `teaioRemux` with the output format guessed from the output path. */
  function RemuxIntended(args: TeaioArgs, env: Env): (r: RunResult)
    requires args.inputFile.Some? && args.outputFile.Some?
    ensures r.error == Success <==> HeaderWritten(args.outputFile.value, args.outputFile.value, env) && env.trailerOk
  {
    Run(args.outputFile.value, args.outputFile.value, env)
  }

  // Resource accounting.

  /** How often `e` occurs in `trace`. */
  function Count(trace: seq<Event>, e: Event): nat
    decreases |trace|
  {
    if trace == [] then 0 else Count(trace[..|trace| - 1], e) + (if trace[|trace| - 1] == e then 1 else 0)
  }

  lemma {:induction false} CountAppend(a: seq<Event>, b: seq<Event>, e: Event)
    ensures Count(a + b, e) == Count(a, e) + Count(b, e)
    decreases |b|
  {
    if b == [] {
      assert a + b == a;
    } else {
      CountAppend(a, b[..|b| - 1], e);
      assert (a + b)[..|a + b| - 1] == a + b[..|b| - 1];
    }
  }

  function AcquireCount(trace: seq<Event>, res: Resource): nat {
    Count(trace, Acquire(res))
  }

  function ReleaseCount(trace: seq<Event>, res: Resource): nat {
    Count(trace, Release(res))
  }

  /** Every resource is acquired at most once and released exactly as often as it
      was acquired. */
  ghost predicate ReleasedExactlyOnce(trace: seq<Event>) {
    forall res :: AcquireCount(trace, res) <= 1 && ReleaseCount(trace, res) == AcquireCount(trace, res)
  }

  /** The trace is all acquisitions, then one entry into `free:`, then all releases. */
  ghost predicate CleanupOnceAtEnd(trace: seq<Event>) {
    && Count(trace, Cleanup) == 1
    && (forall i, j :: 0 <= i < j < |trace| && trace[j].Acquire? ==> trace[i].Acquire?)
    && (forall i, j :: 0 <= i < j < |trace| && trace[i].Release? ==> trace[j].Release?)
  }

  lemma {:induction false} AcquireEventsCount(acquired: seq<Resource>, e: Event)
    requires forall i, j :: 0 <= i < j < |acquired| ==> acquired[i] != acquired[j]
    ensures Count(AcquireEvents(acquired), e) == (if e.Acquire? && e.res in acquired then 1 else 0)
    decreases |acquired|
  {
    if acquired != [] {
      var init := acquired[..|acquired| - 1];
      var last := acquired[|acquired| - 1];
      AcquireEventsCount(init, e);
      var t := AcquireEvents(acquired);
      assert t[..|t| - 1] == AcquireEvents(init);
      assert e.Acquire? ==> (e.res in acquired <==> e.res in init || e.res == last);
      assert last !in init;
    }
  }

  lemma ReleaseIfCount(held: bool, res: Resource, e: Event)
    ensures Count(ReleaseIf(held, res), e) == (if held && e == Release(res) then 1 else 0)
  {
  }

  lemma CountFiveParts(a: seq<Event>, b: seq<Event>, c: seq<Event>, d: seq<Event>, f: seq<Event>, e: Event)
    ensures Count(a + b + c + d + f, e) == Count(a, e) + Count(b, e) + Count(c, e) + Count(d, e) + Count(f, e)
  {
    CountAppend(a, b, e);
    CountAppend(a + b, c, e);
    CountAppend(a + b + c, d, e);
    CountAppend(a + b + c + d, f, e);
  }

  /** The guards of the `free:` block, whatever the run holds: the I/O handle is
      closed only when the output context exists, its format is not
      `AVFMT_NOFILE` and the handle was opened (line 282), the output context is
      freed exactly when it exists, and nothing but releases happens. */
  lemma FreeBlockGuards(acquired: seq<Resource>, output: Option<OutFormat>)
    ensures forall k :: 0 <= k < |FreeBlock(acquired, output)| ==> FreeBlock(acquired, output)[k].Release?
    ensures Release(OutputIo) in FreeBlock(acquired, output) <==>
      output.Some? && !output.value.noFile && OutputIo in acquired
    ensures Release(OutputContext) in FreeBlock(acquired, output) <==> output.Some?
  {
  }

  /** The `free:` block releases exactly the resources the run holds, each once. */
  lemma FreeBlockReleasesHeld(acquired: seq<Resource>, output: Option<OutFormat>, e: Event)
    requires output.Some? <==> OutputContext in acquired
    requires OutputIo in acquired ==> output.Some? && !output.value.noFile
    ensures Count(FreeBlock(acquired, output), e) == (if e.Release? && e.res in acquired then 1 else 0)
  {
    var a := ReleaseIf(PacketBuffer in acquired, PacketBuffer);
    var b := ReleaseIf(InputContext in acquired, InputContext);
    var io := output.Some? && !output.value.noFile && OutputIo in acquired;
    var c := ReleaseIf(io, OutputIo);
    var d := ReleaseIf(output.Some?, OutputContext);
    var f := ReleaseIf(StreamMapBuffer in acquired, StreamMapBuffer);
    assert FreeBlock(acquired, output) == a + b + c + d + f;
    CountFiveParts(a, b, c, d, f, e);
    ReleaseIfCount(PacketBuffer in acquired, PacketBuffer, e);
    ReleaseIfCount(InputContext in acquired, InputContext, e);
    ReleaseIfCount(io, OutputIo, e);
    ReleaseIfCount(output.Some?, OutputContext, e);
    ReleaseIfCount(StreamMapBuffer in acquired, StreamMapBuffer, e);
    if e.Release? {
      match e.res
      case PacketBuffer =>
        assert Count(FreeBlock(acquired, output), e) == Count(a, e);
      case InputContext =>
        assert Count(FreeBlock(acquired, output), e) == Count(b, e);
      case OutputIo =>
        assert Count(FreeBlock(acquired, output), e) == Count(c, e);
      case OutputContext =>
        assert Count(FreeBlock(acquired, output), e) == Count(d, e);
      case StreamMapBuffer =>
        assert Count(FreeBlock(acquired, output), e) == Count(f, e);
    }
  }

  /** The trace a run leaves when it holds `acquired` at `free:`. */
  function ScopeTrace(acquired: seq<Resource>, output: Option<OutFormat>): seq<Event> {
    AcquireEvents(acquired) + [Cleanup] + FreeBlock(acquired, output)
  }

  /** Any state `Stages` can reach is released in full, once, by `free:`. */
  lemma ScopeTraceBalanced(acquired: seq<Resource>, output: Option<OutFormat>)
    requires forall i, j :: 0 <= i < j < |acquired| ==> acquired[i] != acquired[j]
    requires output.Some? <==> OutputContext in acquired
    requires OutputIo in acquired ==> output.Some? && !output.value.noFile
    ensures forall e :: (Count(ScopeTrace(acquired, output), e) ==
      (if e == Cleanup || (!e.Cleanup? && e.res in acquired) then 1 else 0))
    ensures ReleasedExactlyOnce(ScopeTrace(acquired, output))
  {
    var pre := AcquireEvents(acquired);
    var post := FreeBlock(acquired, output);
    var trace := ScopeTrace(acquired, output);
    forall e: Event
      ensures Count(trace, e) == (if e == Cleanup || (!e.Cleanup? && e.res in acquired) then 1 else 0)
    {
      CountAppend(pre, [Cleanup], e);
      CountAppend(pre + [Cleanup], post, e);
      assert Count([Cleanup], e) == (if e == Cleanup then 1 else 0) by {
        assert [Cleanup][..0] == [];
      }
      AcquireEventsCount(acquired, e);
      FreeBlockReleasesHeld(acquired, output, e);
    }
    forall res ensures AcquireCount(trace, res) <= 1 && ReleaseCount(trace, res) == AcquireCount(trace, res) {
      assert Count(trace, Acquire(res)) == Count(trace, Release(res));
    }
  }

  lemma ScopeTraceOrdered(acquired: seq<Resource>, output: Option<OutFormat>)
    requires forall i, j :: 0 <= i < j < |acquired| ==> acquired[i] != acquired[j]
    requires output.Some? <==> OutputContext in acquired
    requires OutputIo in acquired ==> output.Some? && !output.value.noFile
    ensures CleanupOnceAtEnd(ScopeTrace(acquired, output))
  {
    var pre := AcquireEvents(acquired);
    var post := FreeBlock(acquired, output);
    var trace := ScopeTrace(acquired, output);
    ScopeTraceBalanced(acquired, output);
    forall k | 0 <= k < |post| ensures post[k].Release? {
      CountPositive(post, k);
      FreeBlockReleasesHeld(acquired, output, post[k]);
    }
    forall i, j | 0 <= i < j < |trace| && trace[j].Acquire? ensures trace[i].Acquire? {
      assert j < |pre|;
    }
    forall i, j | 0 <= i < j < |trace| && trace[i].Release? ensures trace[j].Release? {
      assert i > |pre|;
      assert trace[j] == post[j - |pre| - 1];
    }
  }

  /** How often one event occurs in the trace of a run that got past the packet
      allocation: by the state `Stages` leaves at `free:`. */
  lemma RunEventCount(formatPath: string, ioPath: string, env: Env, e: Event)
    requires env.packetAllocOk
    ensures Count(Run(formatPath, ioPath, env).trace, e) ==
      (if e == Cleanup || (!e.Cleanup? && e.res in Stages(formatPath, ioPath, env).acquired) then 1 else 0)
  {
    var p := Stages(formatPath, ioPath, env);
    ScopeTraceBalanced(p.acquired, p.output);
  }

  /** After the packet is allocated, every path runs `free:` exactly once, after
      all acquisitions, and it releases each acquired resource exactly once; the
      output I/O handle in particular is closed exactly when it was opened. */
  lemma RunReleasesEachResourceOnce(formatPath: string, ioPath: string, env: Env)
    requires env.packetAllocOk
    ensures ReleasedExactlyOnce(Run(formatPath, ioPath, env).trace)
    ensures CleanupOnceAtEnd(Run(formatPath, ioPath, env).trace)
    ensures AcquireCount(Run(formatPath, ioPath, env).trace, PacketBuffer) == 1
    ensures ReleaseCount(Run(formatPath, ioPath, env).trace, OutputIo) == 1 <==>
      StreamsMapped(formatPath, env) && !env.formatFor(formatPath).value.noFile && env.ioOpens(ioPath)
  {
    var p := Stages(formatPath, ioPath, env);
    assert Run(formatPath, ioPath, env).trace == ScopeTrace(p.acquired, p.output);
    ScopeTraceBalanced(p.acquired, p.output);
    ScopeTraceOrdered(p.acquired, p.output);
    RunEventCount(formatPath, ioPath, env, Acquire(PacketBuffer));
    RunEventCount(formatPath, ioPath, env, Release(OutputIo));
    StagesHoldIo(formatPath, ioPath, env);
  }

  /** The run holds the output I/O handle at `free:` exactly when `avio_open` ran
      (a format that needs a file) and succeeded. */
  lemma StagesHoldIo(formatPath: string, ioPath: string, env: Env)
    requires env.packetAllocOk
    ensures OutputIo in Stages(formatPath, ioPath, env).acquired <==>
      StreamsMapped(formatPath, env) && !env.formatFor(formatPath).value.noFile && env.ioOpens(ioPath)
  {
  }

  /** An event at some position of a trace is counted there. */
  lemma {:induction false} CountPositive(trace: seq<Event>, k: nat)
    requires k < |trace|
    ensures Count(trace, trace[k]) > 0
    decreases |trace|
  {
    if k < |trace| - 1 {
      CountPositive(trace[..|trace| - 1], k);
    }
  }

  /** Which error each failing step leaves: a step's failure is reported with its
      own kind, and once the header is written the error depends on the trailer
      write alone, never on a failed packet write. */
  lemma RunErrorKinds(formatPath: string, ioPath: string, env: Env)
    ensures env.packetAllocOk && !InputOpened(env) ==> Run(formatPath, ioPath, env).error == FileError
    ensures InputOpened(env) && !OutputAllocated(formatPath, env) ==>
      Run(formatPath, ioPath, env).error == AllocationError
    ensures OutputAllocated(formatPath, env) && !StreamsMapped(formatPath, env) ==>
      Run(formatPath, ioPath, env).error == AllocationError
    ensures StreamsMapped(formatPath, env) && !HeaderWritten(formatPath, ioPath, env) ==>
      Run(formatPath, ioPath, env).error == FileError
    ensures HeaderWritten(formatPath, ioPath, env) ==>
      Run(formatPath, ioPath, env).error == (if env.trailerOk then Success else FileError)
  {
  }

  /** How far a failing run got: nothing a later step would acquire is held. */
  lemma RunStopsAtFailure(formatPath: string, ioPath: string, env: Env)
    ensures env.packetAllocOk && !InputOpened(env) ==>
      var r := Run(formatPath, ioPath, env);
      AcquireCount(r.trace, OutputContext) == 0 && r.outStreams == []
    ensures InputOpened(env) && !OutputAllocated(formatPath, env) ==>
      var r := Run(formatPath, ioPath, env);
      AcquireCount(r.trace, OutputContext) == 0 && AcquireCount(r.trace, StreamMapBuffer) == 0 && r.outStreams == []
    ensures OutputAllocated(formatPath, env) && !StreamsMapped(formatPath, env) ==>
      var r := Run(formatPath, ioPath, env);
      AcquireCount(r.trace, OutputIo) == 0 && !r.trailerAttempted
  {
    if env.packetAllocOk {
      RunEventCount(formatPath, ioPath, env, Acquire(OutputContext));
      RunEventCount(formatPath, ioPath, env, Acquire(StreamMapBuffer));
      RunEventCount(formatPath, ioPath, env, Acquire(OutputIo));
    }
  }

  /** Once the header is written: the output streams are the kept input streams
      with cleared codec tags, in input order; the packets submitted are the
      reference forwarding of the packets read, cut off right after the first
      failed write and complete when no write fails; and every submitted packet
      names an output stream of the model. */
  lemma RunCopiesForwardedPackets(formatPath: string, ioPath: string, env: Env)
    requires HeaderWritten(formatPath, ioPath, env)
    ensures var r := Run(formatPath, ioPath, env);
      && r.outStreams == Clones(Kept(env.input.value))
      && r.submitted <= Forwarded(DenseMap(env.input.value), env.rescale, env.packets)
      && (env.writeFailAt.Some? && env.writeFailAt.value < |Forwarded(DenseMap(env.input.value), env.rescale, env.packets)|
          ==> |r.submitted| == env.writeFailAt.value + 1)
      && (env.writeFailAt.None? || env.writeFailAt.value >= |Forwarded(DenseMap(env.input.value), env.rescale, env.packets)|
          ==> r.submitted == Forwarded(DenseMap(env.input.value), env.rescale, env.packets))
      && (forall q :: q in r.submitted ==> 0 <= q.streamIndex < |r.outStreams|)
  {
    var streams := env.input.value;
    var r := Run(formatPath, ioPath, env);
    var m := DenseMap(streams);
    var fwd := Forwarded(m, env.rescale, env.packets);
    RunAfterHeader(formatPath, ioPath, env);
    var copy := CopyLoop(m, env.rescale, env.packets, env.writeFailAt, 0);
    assert r.submitted == copy.submitted;
    ForwardedTargets(m, env.rescale, env.packets);
    DenseMapIsRange(streams);
    forall q | q in r.submitted ensures 0 <= q.streamIndex < |r.outStreams| {
      var k :| 0 <= k < |r.submitted| && r.submitted[k] == q;
      assert q in fwd by { assert fwd[k] == q; }
      var i :| 0 <= i < |m| && m[i] >= 0 && q.streamIndex == m[i];
    }
  }

  /** Once the header is written, the run has mapped every stream densely and
      submits what the copy loop submits over that map. */
  lemma RunAfterHeader(formatPath: string, ioPath: string, env: Env)
    requires HeaderWritten(formatPath, ioPath, env)
    ensures Run(formatPath, ioPath, env).outStreams == Clones(Kept(env.input.value))
    ensures Run(formatPath, ioPath, env).submitted ==
      CopyLoop(DenseMap(env.input.value), env.rescale, env.packets, env.writeFailAt, 0).submitted
  {
    var streams := env.input.value;
    MapStreamsSuccess(streams, env.streamFaults);
    assert streams[..|streams|] == streams;
  }

  /** As written, the output path plays no part in choosing the output format:
      when the input file's name yields a format, the output context is allocated
      and mapping goes ahead even if the output file's name yields none. */
  lemma RemuxFormatFromInputPath(args: TeaioArgs, env: Env)
    requires args.inputFile.Some? && args.outputFile.Some?
    requires InputOpened(env)
    requires env.formatFor(args.inputFile.value).Some? && env.formatFor(args.outputFile.value).None?
    ensures AcquireCount(Remux(args, env).trace, OutputContext) == 1
    ensures (env.mapAllocOk && StopIndex(env.input.value, env.streamFaults) == |env.input.value|
             && (env.formatFor(args.inputFile.value).value.noFile || env.ioOpens(args.outputFile.value))
             && env.headerOk && env.trailerOk)
            ==> Remux(args, env).error == Success
  {
    var p := Stages(args.inputFile.value, args.outputFile.value, env);
    ScopeTraceBalanced(p.acquired, p.output);
  }

  /** With the format guessed from the output path, an output name that yields no
      format fails with ALLOCATION_ERROR before any stream is mapped. */
  lemma RemuxIntendedRejectsUnknownFormat(args: TeaioArgs, env: Env)
    requires args.inputFile.Some? && args.outputFile.Some?
    requires InputOpened(env) && env.formatFor(args.outputFile.value).None?
    ensures RemuxIntended(args, env).error == AllocationError
    ensures AcquireCount(RemuxIntended(args, env).trace, OutputContext) == 0
    ensures RemuxIntended(args, env).outStreams == []
  {
    RunStopsAtFailure(args.outputFile.value, args.outputFile.value, env);
  }

}

=== FILE: streams.dfy ===
/** Stream mapping: `__teaioMapStreams`. Each input stream is either kept (audio,
    video, subtitle) and given the next dense output index, or dropped (-1). */
module Streams {

  import opened Options
  import opened Errors

  /** `AVMediaType` as far as the mapper distinguishes it. */
  datatype MediaType = UnknownType | Video | Audio | Data | Subtitle | Attachment

  predicate IsRemuxed(t: MediaType) {
    t == Audio || t == Video || t == Subtitle
  }

  /** `AVCodecParameters`: the media type, the codec, the container-specific codec
      tag, and everything else (dimensions, sample rate, extradata, ...) as opaque data. */
  datatype CodecParams = CodecParams(codecType: MediaType, codecId: nat, codecTag: nat, details: seq<int>)

  /** An output stream created by `avformat_new_stream`; its parameters are `None`
      when copying them into it failed. */
  datatype OutStream = OutStream(codecpar: Option<CodecParams>)

  /** What the library calls do for one kept stream. */
  datatype StreamFault = Created | NewStreamFails | CopyFails

  /** The map entry of a dropped stream. */
  const Dropped: int := -1

  /** The outcome of the library calls for input stream `i`; streams beyond the
      list of faults are created without trouble. */
  function FaultAt(faults: seq<StreamFault>, i: nat): StreamFault {
    if i < |faults| then faults[i] else Created
  }

  predicate IsKept(s: CodecParams) {
    IsRemuxed(s.codecType)
  }

  /** The kept streams, in input order. */
  function Kept(streams: seq<CodecParams>): (r: seq<CodecParams>)
    ensures |r| <= |streams|
    decreases |streams|
  {
    if streams == [] then []
    else Kept(streams[..|streams| - 1]) + (if IsKept(streams[|streams| - 1]) then [streams[|streams| - 1]] else [])
  }

  /** The copy of a kept stream: the same parameters with the codec tag cleared. */
  function Clone(s: CodecParams): (o: OutStream)
    ensures o.codecpar.Some? && o.codecpar.value.codecTag == 0
    ensures o.codecpar.value.(codecTag := s.codecTag) == s
  {
    OutStream(Some(s.(codecTag := 0)))
  }

  function Clones(ss: seq<CodecParams>): (r: seq<OutStream>)
    ensures |r| == |ss|
    ensures forall k :: 0 <= k < |ss| ==> r[k] == Clone(ss[k])
  {
    seq(|ss|, k requires 0 <= k < |ss| => Clone(ss[k]))
  }

  /** The reference map entry of stream `i`: its position among the kept streams,
      or `Dropped`. */
  function DenseIndex(streams: seq<CodecParams>, i: nat): int
    requires i < |streams|
  {
    if IsKept(streams[i]) then |Kept(streams[..i])| else Dropped
  }

  /** The reference stream map of a run in which every library call succeeds. */
  function DenseMap(streams: seq<CodecParams>): (m: seq<int>)
    ensures |m| == |streams|
    ensures forall i :: 0 <= i < |streams| ==> m[i] == DenseIndex(streams, i)
  {
    seq(|streams|, i requires 0 <= i < |streams| => DenseIndex(streams, i))
  }

  /** The index of the first kept stream whose output stream cannot be set up,
      or the number of streams when there is none. */
  function StopIndex(streams: seq<CodecParams>, faults: seq<StreamFault>, from: nat := 0): (stop: nat)
    requires from <= |streams|
    ensures from <= stop <= |streams|
    ensures forall k :: from <= k < stop ==> !(IsKept(streams[k]) && FaultAt(faults, k) != Created)
    ensures stop < |streams| ==> IsKept(streams[stop]) && FaultAt(faults, stop) != Created
    decreases |streams| - from
  {
    if from == |streams| then from
    else if IsKept(streams[from]) && FaultAt(faults, from) != Created then from
    else StopIndex(streams, faults, from + 1)
  }

  /** The map (NULL when `calloc` fails), the output streams created, and the error kind left behind. */
  datatype MapResult = MapResult(streamMap: Option<seq<int>>, created: seq<OutStream>, error: Errno)

  lemma KeptSnoc(streams: seq<CodecParams>, i: nat)
    requires i < |streams|
    ensures Kept(streams[..i + 1]) == Kept(streams[..i]) + (if IsKept(streams[i]) then [streams[i]] else [])
  {
    assert streams[..i + 1][..i] == streams[..i];
  }

  /** The loop of lines 96-123 from index `i` on, with `next` the next output index
      (`streamIndex`), `streamMap` the partly filled array and `created` the output
      streams made so far. */
  function MapLoop(streams: seq<CodecParams>, faults: seq<StreamFault>, i: nat, next: nat,
                   streamMap: seq<int>, created: seq<OutStream>): (r: MapResult)
    requires i <= StopIndex(streams, faults) && |streamMap| == |streams|
    requires next == |Kept(streams[..i])|
    requires forall k :: 0 <= k < i ==> streamMap[k] == DenseIndex(streams, k)
    requires forall k :: i <= k < |streams| ==> streamMap[k] == 0
    requires created == Clones(Kept(streams[..i]))
    ensures r.streamMap.Some? && |r.streamMap.value| == |streams|
    ensures MapOutcome(streams, faults, r)
    decreases |streams| - i
  {
    if i == |streams| then
      assert streams[..i] == streams;
      MapResult(Some(streamMap), created, Success)
    else if !IsKept(streams[i]) then
      KeptSnoc(streams, i);
      MapLoop(streams, faults, i + 1, next, streamMap[i := Dropped], created)
    else
      KeptSnoc(streams, i);
      var filled := streamMap[i := next];
      match FaultAt(faults, i)
      case NewStreamFails =>
        var r := MapResult(Some(filled), created, AllocationError);
        FailedStreamOutcome(streams, faults, i, streamMap, created, r);
        r
      case CopyFails =>
        var r := MapResult(Some(filled), created + [OutStream(None)], AllocationError);
        FailedStreamOutcome(streams, faults, i, streamMap, created, r);
        r
      case Created =>
        assert Clones(Kept(streams[..i + 1])) == created + [Clone(streams[i])];
        MapLoop(streams, faults, i + 1, next + 1, filled, created + [Clone(streams[i])])
  }

  /** The exit at a kept stream whose output stream cannot be set up (lines 110-113
      and 116-119): the stream's entry is already written, and that is the
      outcome `MapOutcome` describes for it. */
  lemma FailedStreamOutcome(streams: seq<CodecParams>, faults: seq<StreamFault>, i: nat,
                            streamMap: seq<int>, created: seq<OutStream>, r: MapResult)
    requires i < |streams| && IsKept(streams[i]) && FaultAt(faults, i) != Created
    requires i <= StopIndex(streams, faults) && |streamMap| == |streams|
    requires forall k :: 0 <= k < i ==> streamMap[k] == DenseIndex(streams, k)
    requires forall k :: i <= k < |streams| ==> streamMap[k] == 0
    requires created == Clones(Kept(streams[..i]))
    requires r.streamMap == Some(streamMap[i := |Kept(streams[..i])|]) && r.error == AllocationError
    requires r.created == created + (if FaultAt(faults, i) == CopyFails then [OutStream(None)] else [])
    ensures MapOutcome(streams, faults, r)
  {
    assert StopIndex(streams, faults) == i;
  }

  /** What a completed call leaves behind, given the first failing stream `stop`:
      entries up to and including `stop` hold their reference value, later ones the
      zero from `calloc`; exactly the kept streams before `stop` have a cloned
      output stream, plus the blank one a failed parameter copy leaves; and the
      error is ALLOCATION_ERROR exactly when some stream failed. */
  ghost predicate MapOutcome(streams: seq<CodecParams>, faults: seq<StreamFault>, r: MapResult)
    requires r.streamMap.Some? && |r.streamMap.value| == |streams|
  {
    var stop := StopIndex(streams, faults);
    && (forall k :: 0 <= k < |streams| ==>
          r.streamMap.value[k] == (if k <= stop then DenseIndex(streams, k) else 0))
    && r.created == Clones(Kept(streams[..stop]))
                    + (if stop < |streams| && FaultAt(faults, stop) == CopyFails then [OutStream(None)] else [])
    && (r.error == Success <==> stop == |streams|)
    && (r.error != Success ==> r.error == AllocationError)
  }

  /** `__teaioMapStreams`: `mapAllocOk` says whether `calloc` returns memory, and
      `faults` what `avformat_new_stream` and `avcodec_parameters_copy` do for each
      kept stream. */
  function MapStreams(streams: seq<CodecParams>, mapAllocOk: bool, faults: seq<StreamFault>): (r: MapResult)
    ensures !mapAllocOk ==> r == MapResult(None, [], AllocationError)
    ensures mapAllocOk ==> r.streamMap.Some? && |r.streamMap.value| == |streams| && MapOutcome(streams, faults, r)
  {
    if !mapAllocOk then MapResult(None, [], AllocationError)
    else
      assert streams[..0] == [];
      MapLoop(streams, faults, 0, 0, seq(|streams|, _ => 0), [])
  }


  /** Kept streams of a prefix are a prefix of the kept streams of a longer prefix. */
  lemma {:induction false} KeptPrefix(streams: seq<CodecParams>, i: nat, j: nat)
    requires i <= j <= |streams|
    ensures |Kept(streams[..i])| <= |Kept(streams[..j])|
    ensures Kept(streams[..i]) == Kept(streams[..j])[..|Kept(streams[..i])|]
    decreases j - i
  {
    if i < j {
      KeptPrefix(streams, i, j - 1);
      KeptSnoc(streams, j - 1);
    }
  }

  /** A kept stream's entry addresses that very stream among the kept ones. */
  lemma DenseIndexAddressesStream(streams: seq<CodecParams>, i: nat)
    requires i < |streams| && IsKept(streams[i])
    ensures 0 <= DenseIndex(streams, i) < |Kept(streams)|
    ensures Kept(streams)[DenseIndex(streams, i)] == streams[i]
  {
    KeptSnoc(streams, i);
    KeptPrefix(streams, i + 1, |streams|);
    assert streams[..|streams|] == streams;
  }

  /** Kept streams keep their input order in the output. */
  lemma DenseIndexIncreasing(streams: seq<CodecParams>, i: nat, j: nat)
    requires i < j < |streams| && IsKept(streams[i]) && IsKept(streams[j])
    ensures 0 <= DenseIndex(streams, i) < DenseIndex(streams, j)
  {
    KeptSnoc(streams, i);
    KeptPrefix(streams, i + 1, j);
  }

  /** Every output index below the number of kept streams is some stream's entry. */
  lemma {:induction false} DenseIndexOnto(streams: seq<CodecParams>, v: int)
    requires 0 <= v < |Kept(streams)|
    ensures exists i :: 0 <= i < |streams| && DenseIndex(streams, i) == v
    decreases |streams|
  {
    var n := |streams|;
    var init := streams[..n - 1];
    if v < |Kept(init)| {
      DenseIndexOnto(init, v);
      var i :| 0 <= i < |init| && DenseIndex(init, i) == v;
      assert init[..i] == streams[..i];
      assert DenseIndex(streams, i) == v;
    } else {
      assert IsKept(streams[n - 1]) && v == |Kept(init)|;
      assert DenseIndex(streams, n - 1) == v;
    }
  }

  /** `v` is one of the entries of map `m`. */
  predicate IsEntry(m: seq<int>, v: int) {
    exists i :: 0 <= i < |m| && m[i] == v
  }

  /** The reference map drops exactly the streams that are not audio, video or
      subtitle, and its other entries are exactly 0, 1, ..., K - 1 with K the
      number of kept streams, each used once and in input order. */
  lemma DenseMapIsRange(streams: seq<CodecParams>)
    ensures forall i :: 0 <= i < |streams| ==> (DenseMap(streams)[i] == Dropped <==> !IsKept(streams[i]))
    ensures forall i :: 0 <= i < |streams| && IsKept(streams[i]) ==> 0 <= DenseMap(streams)[i] < |Kept(streams)|
    ensures forall v :: 0 <= v < |Kept(streams)| ==> IsEntry(DenseMap(streams), v)
    ensures forall i, j :: (0 <= i < j < |streams| && DenseMap(streams)[i] >= 0 && DenseMap(streams)[j] >= 0
            ==> DenseMap(streams)[i] < DenseMap(streams)[j])
  {
    var m := DenseMap(streams);
    forall i | 0 <= i < |streams| && IsKept(streams[i]) ensures 0 <= m[i] < |Kept(streams)| {
      DenseIndexAddressesStream(streams, i);
    }
    forall v | 0 <= v < |Kept(streams)| ensures IsEntry(m, v) {
      DenseIndexOnto(streams, v);
      var i :| 0 <= i < |streams| && DenseIndex(streams, i) == v;
      assert m[i] == v;
    }
    forall i, j | 0 <= i < j < |streams| && m[i] >= 0 && m[j] >= 0 ensures m[i] < m[j] {
      DenseIndexIncreasing(streams, i, j);
    }
  }

  /** When no library call fails, each kept stream gets exactly one output stream,
      found at the index its map entry names, holding its codec parameters with
      the codec tag cleared; and nothing else is created. */
  lemma MapStreamsSuccess(streams: seq<CodecParams>, faults: seq<StreamFault>)
    requires StopIndex(streams, faults) == |streams|
    ensures MapStreams(streams, true, faults).error == Success
    ensures MapStreams(streams, true, faults).streamMap == Some(DenseMap(streams))
    ensures |MapStreams(streams, true, faults).created| == |Kept(streams)|
    ensures forall i :: 0 <= i < |streams| && IsKept(streams[i]) ==> 0 <= DenseMap(streams)[i] < |Kept(streams)|
    ensures forall i :: 0 <= i < |streams| && IsKept(streams[i]) ==>
      MapStreams(streams, true, faults).created[DenseMap(streams)[i]] == Clone(streams[i])
  {
    var r := MapStreams(streams, true, faults);
    assert streams[..|streams|] == streams;
    assert r.streamMap.value == DenseMap(streams);
    DenseMapIsRange(streams);
    forall i | 0 <= i < |streams| && IsKept(streams[i])
      ensures r.created[DenseMap(streams)[i]] == Clone(streams[i])
    {
      DenseIndexAddressesStream(streams, i);
    }
  }

  /** A failure part-way returns the partly filled map: streams up to the failing
      one hold their reference entry, the rest keep `calloc`'s zero (not -1). The
      output streams created are the clones of the kept streams before the failing
      one, followed by the blank stream a failed parameter copy leaves behind. */
  lemma MapStreamsPartial(streams: seq<CodecParams>, faults: seq<StreamFault>)
    requires StopIndex(streams, faults) < |streams|
    ensures MapStreams(streams, true, faults).error == AllocationError
    ensures forall k :: StopIndex(streams, faults) < k < |streams| ==>
      MapStreams(streams, true, faults).streamMap.value[k] == 0
    ensures forall k :: 0 <= k <= StopIndex(streams, faults) ==>
      MapStreams(streams, true, faults).streamMap.value[k] == DenseMap(streams)[k]
    ensures MapStreams(streams, true, faults).created ==
      Clones(Kept(streams[..StopIndex(streams, faults)]))
      + (if FaultAt(faults, StopIndex(streams, faults)) == CopyFails then [OutStream(None)] else [])
  {
  }

  /** Every stream of the list is audio, video or subtitle. */
  predicate AllKept(streams: seq<CodecParams>) {
    forall i :: 0 <= i < |streams| ==> IsKept(streams[i])
  }

  lemma {:induction false} KeptOfAllKept(streams: seq<CodecParams>)
    requires AllKept(streams)
    ensures Kept(streams) == streams
    decreases |streams|
  {
    if streams != [] {
      KeptOfAllKept(streams[..|streams| - 1]);
      assert streams[..|streams| - 1] + [streams[|streams| - 1]] == streams;
    }
  }

  /** The codec parameters a remux writes for `streams`: one per kept stream, in
      input order, each with its codec tag cleared. */
  function WrittenParams(streams: seq<CodecParams>): (w: seq<CodecParams>)
    ensures |w| == |Kept(streams)|
    ensures forall k :: 0 <= k < |w| ==> Clones(Kept(streams))[k].codecpar == Some(w[k])
  {
    var outs := Clones(Kept(streams));
    seq(|outs|, k requires 0 <= k < |outs| => outs[k].codecpar.value)
  }

  /** The parameters a remux writes keep the media types of the kept streams, so
      all of them are kept again. */
  lemma WrittenParamsAreKept(streams: seq<CodecParams>)
    ensures forall k :: 0 <= k < |Kept(streams)| ==>
      WrittenParams(streams)[k].codecType == Kept(streams)[k].codecType
    ensures AllKept(WrittenParams(streams))
  {
    var w := WrittenParams(streams);
    forall k | 0 <= k < |w| ensures IsKept(w[k]) {
      KeptAreKept(streams, k);
    }
  }

  /** Remuxing the output of a remux again keeps every stream, in the same order
      (the map of the second pass is the identity), and writes the very same
      parameters. */
  lemma RemuxOfRemuxMapsIdentically(streams: seq<CodecParams>)
    ensures Kept(WrittenParams(streams)) == WrittenParams(streams)
    ensures forall k :: 0 <= k < |WrittenParams(streams)| ==> DenseMap(WrittenParams(streams))[k] == k
    ensures WrittenParams(WrittenParams(streams)) == WrittenParams(streams)
  {
    var w := WrittenParams(streams);
    WrittenParamsAreKept(streams);
    KeptOfAllKept(w);
    IdentityMap(w);
    var ww := WrittenParams(w);
    forall k | 0 <= k < |w| ensures ww[k] == w[k] {
      assert Clones(Kept(streams))[k] == Clone(Kept(streams)[k]);
      assert w[k].codecTag == 0;
      assert Clones(w)[k] == Clone(w[k]);
    }
  }

  /** When every stream is kept, each one maps to its own index. */
  lemma IdentityMap(w: seq<CodecParams>)
    requires AllKept(w)
    ensures forall k :: 0 <= k < |w| ==> DenseMap(w)[k] == k
  {
    forall k | 0 <= k < |w| ensures DenseMap(w)[k] == k {
      assert AllKept(w[..k]);
      KeptOfAllKept(w[..k]);
    }
  }

  lemma {:induction false} KeptAreKept(streams: seq<CodecParams>, k: nat)
    requires k < |Kept(streams)|
    ensures IsKept(Kept(streams)[k])
    decreases |streams|
  {
    var init := streams[..|streams| - 1];
    if k < |Kept(init)| {
      KeptAreKept(init, k);
    }
  }

}
